=== FILE: README.md ===
# Squat drill: pose detector and drill sergeant, modelled in Dafny

The application turns per-frame body keypoints into counted, graded squats. A
drill sergeant paces the squats against a 9-beat metronome. This project models
the logic of that pipeline as pure functions over immutable records. Wall-clock
time (`now`, integer milliseconds) and random draws are parameters.

- `base.dfy`, module `Base`: `Option` and the JavaScript numeric operations the
  model depends on. These are clamping, the truncating `%`, and `Math.ceil` of
  an integer quotient.
- `pose.dfy`, module `Pose` (pose.js, `PoseDetector`). It holds the full-body
  visibility gate and the calibration state machine (not visible, a 2000 ms
  wait after the rising edge, 30 standing samples, then baseline and
  thresholds). It also holds the two-state hysteresis repetition counter with
  depth grading and tallies, the `onResults` routing, reset, and the overlay
  colour. `Valid` is the detector invariant. The constructor and reset
  establish it, and every frame keeps it.
- `drill.dfy`, module `Drill` (sergeant.js, `DrillSergeant`). It holds the
  virtual beat clock, the behind-tempo warning, the goal / extra-goal / finish
  lifecycle, and message choice without immediate repeats.
- `app.dfy`, module `App` (main.js, `DrillApp`). It holds the goal stepper and
  the goal parse, the beat-dot display, and the listener that drops repetitions
  after the finish. It also holds the preview colour bands, one frame wired
  from detector to sergeant, and restart.

Some details of the code that are easy to misread:
- `finish()` does not check `isFinished` itself. Only `handleSquatComplete`
  guards it (sergeant.js:400, 470-484).
- `resetCalibration` clears the calibrated flag, the samples and the counters.
  It keeps the old calibration record (pose.js:425-447), which stays unused
  until calibration completes again.
- Losing full-body visibility keeps the accepted samples and the progress. Only
  the wait timer restarts (pose.js:273-280).

## Model

| member | source | states |
|---|---|---|
| Pose.CheckFullBodyVisibility | pose.js:235-257 | full body exactly when the missing list is empty; a joint is listed exactly when its point is absent or has visibility below 0.5; each joint at most once, in index order |
| Pose.MissingAmong | pose.js:246-251 | the walk over required points keeps exactly the missing ones, in order |
| Pose.FullBodyIffNothingMissing | pose.js:235-257 | a frame is full-body exactly when none of the eight required joints is missing |
| Pose.FullBodyHasHipsAndKnees | pose.js:302-308 | a full-body frame has both hips and both knees, so the calibration read of points 23-26 is defined |
| Pose.ProcessCalibration | pose.js:262-332 | losing the body clears the timer and reports not_full_body with countdown 0, keeping samples and progress; the rising edge restarts the wait at `now` (countdown 2), and while the body stays in view the wait keeps its start time; the report says not_full_body exactly when the body is out of view and waiting exactly when it is in view and less than 2000 ms have passed since the wait began, and then progress 0 is reported, nothing is sampled and the countdown is the ceiling of the remaining seconds; every other report has countdown 0; after the wait the frame is either sampled or rejected as not standing, and the report calls the pose correct exactly when it says standing; samples change only when one is taken; the counting state is untouched |
| Pose.CalibrationSampling | pose.js:299-332 | after the wait a frame is sampled exactly when it shows a standing pose, which appends its sample and reports the new progress; a non-standing frame keeps samples and progress; completion happens exactly when the 30th sample is accepted and stores the baseline of all samples |
| Pose.ProcessCalibrationKeepsValid | pose.js:262-351 | before calibration completes, a calibration frame keeps the detector invariant: at most 30 samples, all standing, with their progress, and the baseline once calibrated |
| Pose.StandingSumsExceedGap | pose.js:307-313 | every accepted sample has knee minus hip above 0.15, so the summed gap exceeds 0.15 times the sample count |
| Pose.MeanLegExceedsGap | pose.js:344-347 | the mean knee minus the mean hip of standing samples exceeds 0.15 |
| Pose.BaselineOf | pose.js:337-351 | squatThreshold is 0.15 and deepSquatThreshold 0.4 of the leg length; over standing samples the leg is longer than 0.15 and 0 < squatThreshold < deepSquatThreshold |
| Pose.BaselineIsMean | pose.js:338-345 | the standing hip and knee heights are the arithmetic means of the samples |
| Pose.Progress | pose.js:318 | progress lies in [0, 100], is n/30 of 100 up to 30 samples, and is 100 exactly from 30 samples on |
| Pose.NewDetector | pose.js:7-61 | the initial detector is uncalibrated and satisfies the detector invariant; it has no samples and progress 0, sees no body and has no wait running, counts no repetition in any band, is standing, and its pose state is not squatting, at depth 0, with no category |
| Pose.Classify | pose.js:393-402 | shallow below 0.4, medium in [0.4, 0.7), deep from 0.7 |
| Pose.UpdateGameState | pose.js:361-413 | a frame missing a hip changes nothing; depth is displacement over the deep threshold, saturated to 0 below and to 1 above; standing turns to squatting exactly when displacement exceeds the squat threshold, and the peak then starts at the depth; a repetition is counted only on squatting to standing, exactly when displacement is below half the squat threshold; it has the next count, the grade of the running peak, and increments that grade's tally; the peak then resets to 0; calibration fields are untouched |
| Pose.UpdateGameStateKeepsValid | pose.js:370-402 | once calibrated, a counting frame keeps depth and peak in [0, 1] and the tallies summing to the count |
| Pose.HysteresisBandHolds | pose.js:374-389 | while displacement stays between half the squat threshold and the squat threshold, the phase does not change and nothing is counted |
| Pose.DeepRepetitionExample | pose.js:367-410 | with baseline hip 0.50 and thresholds 0.03 and 0.08, a hip drop to 0.62 and back counts one deep repetition of peak depth 1 |
| Pose.OnResults | pose.js:111-125 | a frame without landmarks does nothing; before calibration a frame goes to the calibration step and never counts; afterwards it goes to the counter, whose repetition is passed on; after calibration the baseline and samples never change; the invariant is kept |
| Pose.RunFrames | pose.js:116-120 | over any frame sequence the invariant holds, repetition events are numbered consecutively from the starting count, and their number is the count's increase |
| Pose.GetDepthCounts | pose.js:418-420 | the three tallies add up to the repetition count |
| Pose.ResetCalibration | pose.js:425-447 | uncalibrated, no samples, progress 0, timer cleared and calibration not started; the pose state is back at rest (not squatting, depth 0, count 0, no category), all tallies and the peak are zero, the phase is standing; the calibration record is kept; the invariant is re-established |
| Pose.ResetIsIdempotent | pose.js:425-447 | resetting twice is the same as resetting once |
| Pose.DepthColor | pose.js:222-230 | red exactly below 0.4, green exactly from 0.7 |
| Pose.ColorMatchesGrade | pose.js:222-230 | the overlay colour bands coincide with the shallow / medium / deep grades |
| Drill.NewSergeant | sergeant.js:6-32 | a new sergeant is stopped, unfinished, at beat 0, goal 20 with no extra repetitions; nothing is counted, missed or warned and it is not in the extra phase; its pools are exactly the given ones, with no message history |
| Drill.SetGoal | sergeant.js:285-289 | extraReps is in [5, 20] and actualGoal = goal + extraReps, so actualGoal > goal; every other field, pools and message history included, is kept |
| Drill.ChooseIndex | sergeant.js:298-305 | a pool of two or more lines yields an index inside the pool and never the previous one |
| Drill.ChooseIndexReachesAll | sergeant.js:302-304 | every index other than the previous one can be chosen |
| Drill.GetRandomMessage | sergeant.js:294-316 | an unknown or empty pool returns "" and changes nothing; a one-line pool yields index 0; a larger pool never repeats the previous index; the chosen index is recorded and nothing else changes |
| Drill.Start | sergeant.js:321-350 | beat, counts, warnings and flags return to their initial values, the clock runs from `now`, the goal and pools are kept; the announced line comes from the start pool (empty when the pool is missing or empty), and no other pool's history changes |
| Drill.StartDoesNotTick | sergeant.js:349-363 | the beatLoop pass that start makes at once never ticks |
| Drill.StartOpensFirstBar | sergeant.js:321-372 | after start, the next beat check ticks exactly when at least 1000 ms have passed, and that tick is beat 1, strong, with no warning (nothing has been counted yet) |
| Drill.BeatInBar | sergeant.js:366 | for beat >= 1 the place in the bar lies in 1..9 and is congruent to the beat modulo 9 |
| Drill.IsStrong | sergeant.js:366-367 | from beat 1 on, a beat is strong exactly when it opens the five-beat descent or the four-beat ascent of its bar |
| Drill.BarRepeatsEveryNineBeats | sergeant.js:365-367 | the place in the bar, and with it the accent, repeats every nine beats |
| Drill.WarningDue | sergeant.js:376-382 | a warning is due exactly when at least one repetition is done, the beat has reached the bar after `count` full bars, and nine beats have passed since the last warning |
| Drill.BeatStep | sergeant.js:355-393 | nothing happens when stopped or finished or when less than 1000 ms have passed; otherwise the beat advances by exactly one, the last beat time becomes `now`, and a tick with the strong flag is emitted; a warning fires exactly when count > 0, floor(beat/9) - count >= 1 and beat - lastSlowWarningBeat >= 9, and then records the beat, adds one missed beat and shows a line from the slow pool; the pools are kept, and the message history changes only on a warning and only for the slow pool |
| Drill.BeatRunKeepsPools | sergeant.js:355-393 | over any run of checks the pools, the goal, the count and the finished flag are kept, and only the slow pool's history can change |
| Drill.BeatRunProperties | sergeant.js:356-389 | over any run of checks, beats are numbered consecutively with at most one per check; successive warnings are at least 9 beats apart; the last warning beat is remembered; missed beats count the warnings |
| Drill.Finish | sergeant.js:470-484 | finished, tempo stopped, final count reported with a line from the finish pool; pools, behind-tempo bookkeeping and the other pools' history are kept |
| Drill.Stop | sergeant.js:489-495 | finished and tempo stopped, count and goal kept |
| Drill.HandleSquatComplete | sergeant.js:398-441 | a no-op once finished; otherwise the count is stored, and the pools, the last warning beat and the missed beats are kept; count == goal enters the extra phase with the extra-training signal, shows a line from the after-goal pool and never finishes; otherwise count >= actualGoal finishes with that count and a line from the finish pool; otherwise a line from the grade's pool is shown; the goal line is spoken with priority, a shallow line in the angry voice, and after a medium or deep repetition only the count is spoken; in every case only the history of the pool drawn from can change |
| Drill.GradedLineNeverRepeats | sergeant.js:294-441 | two graded repetitions of the same grade, with any run of beat checks between them, never show the same line of a pool of two or more lines |
| Drill.GetExtraRemaining | sergeant.js:453-456 | 0 outside the extra phase; inside it, the repetitions left to actualGoal, never negative |
| Drill.ExtraPhaseLeavesExtraReps | sergeant.js:406-416 | on reaching the goal, the remaining count is exactly the hidden extra repetitions, at least 5 |
| Drill.FinishedIsInert | sergeant.js:398-400 | after finish or stop, repetition events change nothing, and neither do beat checks (the guard at line 356) |
| Drill.GoalTwentyExample | sergeant.js:398-422 | goal 20 with 7 extra: repetition 20 enters the extra phase, 21-26 neither finish nor re-enter it, 27 finishes |
| Drill.FinishAtMostOnce | sergeant.js:398-422 | over any sequence of repetition events the session finishes at most once, never after it is finished, and stays finished |
| App.ParseGoal | main.js:104 | the parsed field, or 20 when it is not a number or is zero; never zero |
| App.GoalMinus | main.js:75-78 | one step of 5 down, never below 5 |
| App.GoalPlus | main.js:80-83 | one step of 5 up, never above 100 |
| App.StepperStaysInRange | main.js:74-83 | from a goal in [5, 100] both buttons stay in [5, 100], and minus undoes plus (and plus undoes minus) away from the ends |
| App.BeatDots | main.js:221-230 | a dot is lit exactly when its index is below the beat's place in the bar, and current exactly at that place |
| App.BeatDotsShowBarPosition | main.js:210-230 | for every beat >= 1, exactly one dot is current, at the beat's place in the bar, and the lit dots are exactly those up to it |
| App.PreviewColor | main.js:357-363 | green exactly from 0.7, orange exactly in [0.4, 0.7), red exactly below 0.4 |
| App.PreviewMatchesOverlay | main.js:357-363 | the preview's bands (>= 0.7, >= 0.4, else) pick the same colour as the overlay for every depth |
| App.OnSquatComplete | main.js:251-265 | once the sergeant is finished the event is dropped entirely; otherwise the count is shown and the event reaches the sergeant with count, grade and depth unchanged |
| App.StartCalibration | main.js:103-108 | the goal is the parsed field (20 as fallback) and the detector is exactly the one a new PoseDetector starts with, so it is valid and uncalibrated |
| App.StartTraining | main.js:202-203 | the new sergeant has the app's goal and a hidden real goal above it, the given pools with no history, no count, no missed beats or warning, and is not in the extra phase |
| App.OnFrame | main.js:250-258 | the frame goes through the detector; once training has begun, a repetition it completes goes through the listener in the same frame and the listener's sergeant becomes the app's; without a repetition the sergeant is unchanged, and a finished sergeant is never changed; the detector invariant is kept |
| App.SergeantTracksDetector | main.js:251-258 | while the session runs, the sergeant's count stays equal to the detector's count from frame to frame |
| App.Restart | main.js:512-516 | the sergeant is stopped (finished, tempo off) and the detector reset to uncalibrated with zero counts |
| App.RestartSilencesSession | main.js:512-516 | after restart a late repetition is dropped and the clock does not tick |

## Left out

- Camera and pose-estimator setup, frame delivery, and all canvas drawing (pose.js:66-109, 131-217; main.js preview and training canvases). These are foreign libraries and rendering. A frame is given as a map from landmark index to point.
- The `onPoseDetected` listener payload and `latestLandmarks`. They only feed the depth bar and the preview drawing.
- Speech synthesis and Web Audio (sergeant.js:113-280), the delayed finish speech, and `speakCountdown`. These wrap browser APIs. A repetition's result records what is spoken (`Drill.Speech`), and the start, finish and behind-tempo results return their line, which the source both shows and speaks.
- `requestAnimationFrame` / `setTimeout` scheduling: beatLoop's self-rescheduling (sergeant.js:392), the countdown chain (main.js:282-305) and the delayed result screen. One step takes `now`, and a run is a sequence of steps.
- `Math.random`. The extra repetitions take an injected `k` in 0..15. A message choice takes an injected `draw`.
- Drill.ChooseIndex: the source redraws in a loop until the index differs from the previous one. The model maps the draw onto the allowed indices instead, so the rejection loop is not modelled. `ChooseIndexReachesAll` shows that the model can reach exactly the indices the loop can return.
- IEEE-754 rounding. Coordinates, thresholds and progress are exact reals.
- Pose.UpdateGameState: requires a non-zero deep threshold. With a zero threshold the source would divide by zero and produce Infinity or NaN. The constructor and every completed calibration keep that threshold positive (`Valid`).
- Pose.Landmark: visibility is always present. In the source, a point without a visibility value would pass the `< 0.5` test.
- The message texts and the `{count}` template substitution. Pools are abstract sequences of strings, and the leg-versus-body overlay text (main.js:116-120) is not modelled.
- `parseInt` on the text field. The input is its result, an `Option<int>`.
- DOM and UI work in main.js: `showScreen`, `showMessage`, `shakeFace` (only the decision to shake is modelled), `showResult`, `handleResize`, the calibration status texts, and the error path of camera initialisation.
- `isInExtraTraining` (a plain field read), `PoseDetector.stop` (camera stop), and the unused `lastSquatBeat` / `expectedSquatBeat` bookkeeping. The model sets these two fields as the source does; nothing reads them.

=== FILE: app.dfy ===
/** The application glue (main.js, class DrillApp) that carries logic: the goal
    stepper and the goal read at calibration start, the beat-dot display, the
    guard on repetition events after the session has finished, the preview
    colour bands, the wiring of one frame from the detector to the sergeant,
    and restart. The text field is modelled by what `parseInt` made of it:
    `None` when it is not a number. */
module App {
  import opened Base
  import Pose
  import Drill

  const DefaultGoal: int := 20
  const GoalStep: int := 5
  const MinGoal: int := 5
  const MaxGoal: int := 100

  /** `parseInt(value) || 20`: an unparsable field and a zero both fall back to 20. */
  function ParseGoal(input: Option<int>): (g: int)
    ensures g != 0
    ensures input.Some? && input.value != 0 ==> g == input.value
    ensures input.None? || input == Some(0) ==> g == DefaultGoal
  {
    match input
    case Some(v) => if v != 0 then v else DefaultGoal
    case None => DefaultGoal
  }

  /** The minus button: one step down, never below 5. */
  function GoalMinus(input: Option<int>): (r: int)
    ensures r >= MinGoal
    ensures ParseGoal(input) - GoalStep >= MinGoal ==> r == ParseGoal(input) - GoalStep
    ensures ParseGoal(input) - GoalStep < MinGoal ==> r == MinGoal
  {
    var down := ParseGoal(input) - GoalStep;
    if down >= MinGoal then down else MinGoal
  }

  /** The plus button: one step up, never above 100. */
  function GoalPlus(input: Option<int>): (r: int)
    ensures r <= MaxGoal
    ensures ParseGoal(input) + GoalStep <= MaxGoal ==> r == ParseGoal(input) + GoalStep
    ensures ParseGoal(input) + GoalStep > MaxGoal ==> r == MaxGoal
  {
    var up := ParseGoal(input) + GoalStep;
    if up <= MaxGoal then up else MaxGoal
  }

  /** The stepper keeps a goal inside [5, 100], and minus and plus undo each
      other away from the ends of the range. */
  lemma StepperStaysInRange(c: int)
    requires MinGoal <= c <= MaxGoal
    ensures MinGoal <= GoalMinus(Some(c)) <= MaxGoal
    ensures MinGoal <= GoalPlus(Some(c)) <= MaxGoal
    ensures c <= MaxGoal - GoalStep ==> GoalMinus(Some(GoalPlus(Some(c)))) == c
    ensures c >= MinGoal + GoalStep ==> GoalPlus(Some(GoalMinus(Some(c)))) == c
  {
  }

  /** One of the nine dots under the beat counter. */
  datatype Dot = Dot(active: bool, current: bool)

  /** The dots as onBeat leaves them: every dot up to the beat's place in the
      bar is lit, and the dot at that place is the current one. */
  function BeatDots(beat: int, count: nat): (dots: seq<Dot>)
    ensures |dots| == count
    ensures forall i :: 0 <= i < count ==>
      (dots[i].active <==> i < Drill.BeatInBar(beat)) && (dots[i].current <==> i == Drill.BeatInBar(beat) - 1)
  {
    var b := Drill.BeatInBar(beat);
    seq(count, i => Dot(i < b, i == b - 1))
  }

  /** For every tick (beats start at 1) and the nine dots of the display:
      exactly one dot is current, it sits at the beat's place in the bar, the
      lit dots are exactly those up to and including it, and their number is
      the place in the bar. */
  lemma BeatDotsShowBarPosition(beat: int)
    requires beat >= 1
    ensures var dots := BeatDots(beat, 9);
      var b := Drill.BeatInBar(beat);
      && 1 <= b <= 9
      && dots[b - 1].current
      && (forall i :: 0 <= i < 9 && dots[i].current ==> i == b - 1)
      && (forall i :: 0 <= i < 9 ==> (dots[i].active <==> i <= b - 1))
  {
  }

  /** The preview's colour bands, checked from the deep end down. */
  function PreviewColor(depth: real): (band: Pose.Band)
    ensures band == Pose.Green <==> depth >= 0.7
    ensures band == Pose.Orange <==> 0.4 <= depth < 0.7
    ensures band == Pose.Red <==> depth < 0.4
  {
    if depth >= 0.7 then Pose.Green
    else if depth >= 0.4 then Pose.Orange
    else Pose.Red
  }

  /** The preview and the detector's overlay pick the same band for every depth. */
  lemma PreviewMatchesOverlay(depth: real)
    ensures PreviewColor(depth) == Pose.DepthColor(depth)
  {
  }

  /** What the repetition listener did with one event. */
  datatype Forwarded = Forwarded(
    sergeant: Drill.Sergeant,
    displayedCount: Option<int>,
    handled: Option<Drill.SquatResult>,
    shakeFace: bool)

  /** The repetition listener installed at training start: nothing at all once
      the sergeant has finished; otherwise the count is shown and the event is
      handed on unchanged, and a shallow repetition shakes the face. */
  function OnSquatComplete(s: Drill.Sergeant, e: Pose.RepEvent, draw: nat): (r: Forwarded)
    ensures s.isFinished ==> r == Forwarded(s, None, None, false)
    ensures !s.isFinished ==>
      && r.displayedCount == Some(e.count as int)
      && r.handled == Some(Drill.HandleSquatComplete(s, e.count, e.category, e.peakDepth, draw))
      && r.sergeant == r.handled.value.sergeant
      && (r.shakeFace <==> e.category == Pose.Shallow)
  {
    if s.isFinished then Forwarded(s, None, None, false)
    else
      var handled := Drill.HandleSquatComplete(s, e.count, e.category, e.peakDepth, draw);
      Forwarded(handled.sergeant, Some(e.count), Some(handled), e.category == Pose.Shallow)
  }

  /** The application's state: the detector, the sergeant once training has
      begun, and the goal read from the field. */
  datatype AppState = AppState(detector: Pose.Detector, sergeant: Option<Drill.Sergeant>, goal: int)

  /** startCalibration: read the goal and create a fresh detector. */
  function StartCalibration(a: AppState, input: Option<int>): (r: AppState)
    ensures r.detector == Pose.NewDetector()
    ensures Pose.Valid(r.detector) && !r.detector.isCalibrated
    ensures r.goal == ParseGoal(input) && r.goal != 0
    ensures r.sergeant == a.sergeant
  {
    a.(goal := ParseGoal(input), detector := Pose.NewDetector())
  }

  /** startTraining: a new sergeant over the given pools, with the app's goal
      and the injected extra-repetition draw. */
  function StartTraining(a: AppState, messages: map<Drill.MessageKind, seq<string>>, k: int): (r: AppState)
    requires 0 <= k < Drill.ExtraRepsSpan
    ensures r.sergeant.Some? && Drill.GoalSet(r.sergeant.value) && r.sergeant.value.goal == a.goal
    ensures !r.sergeant.value.isFinished && r.sergeant.value.actualGoal > a.goal
    // a new sergeant over the given pools: nothing counted yet and not in the extra phase
    ensures r.sergeant.value.messages == messages && r.sergeant.value.lastMessageIndex == map[]
    ensures r.sergeant.value.currentCount == 0 && !r.sergeant.value.isExtraTraining
    ensures r.sergeant.value.missedBeats == 0 && r.sergeant.value.lastSlowWarningBeat == 0
    ensures r.detector == a.detector
  {
    a.(sergeant := Some(Drill.SetGoal(Drill.NewSergeant(messages), a.goal, k)))
  }

  datatype AppFrame = AppFrame(app: AppState, frame: Pose.FrameResult, forwarded: Option<Forwarded>)

  /** One delivered frame: the detector processes it, and a repetition it
      completes reaches the sergeant through the listener within the same frame
      (the listener exists only once training has begun). */
  function OnFrame(a: AppState, frame: Option<Pose.Frame>, now: int, draw: nat): (r: AppFrame)
    requires a.detector.isCalibrated ==> a.detector.calibration.deepSquatThreshold != 0.0
    ensures Pose.Valid(a.detector) ==> Pose.Valid(r.app.detector)
    ensures r.frame == Pose.OnResults(a.detector, frame, now) && r.app.detector == r.frame.detector
    ensures r.forwarded.Some? <==> r.frame.rep.Some? && a.sergeant.Some?
    // the repetition goes through the listener, whose result is the new sergeant
    ensures r.forwarded.Some? ==>
      r.forwarded.value == OnSquatComplete(a.sergeant.value, r.frame.rep.value, draw)
      && r.app.sergeant == Some(r.forwarded.value.sergeant)
    ensures r.forwarded.None? ==> r.app.sergeant == a.sergeant
    ensures r.app.goal == a.goal
    ensures a.sergeant.Some? && a.sergeant.value.isFinished ==> r.app.sergeant == a.sergeant
    ensures a.sergeant.None? ==> r.app.sergeant.None?
  {
    var fr := Pose.OnResults(a.detector, frame, now);
    match (fr.rep, a.sergeant)
    case (Some(e), Some(s)) =>
      var fw := OnSquatComplete(s, e, draw);
      AppFrame(a.(detector := fr.detector, sergeant := Some(fw.sergeant)), fr, Some(fw))
    case _ =>
      AppFrame(a.(detector := fr.detector), fr, None)
  }

  /** While the session runs, the sergeant's count is the detector's: every
      repetition the detector completes reaches the sergeant in the same frame. */
  lemma SergeantTracksDetector(a: AppState, frame: Option<Pose.Frame>, now: int, draw: nat)
    requires a.detector.isCalibrated ==> a.detector.calibration.deepSquatThreshold != 0.0
    requires a.sergeant.Some? && !a.sergeant.value.isFinished
    requires a.sergeant.value.currentCount == a.detector.current.squatCount
    ensures var r := OnFrame(a, frame, now, draw).app;
      r.sergeant.Some? && r.sergeant.value.currentCount == r.detector.current.squatCount
  {
  }

  /** restart: the sergeant is stopped before the detector is reset, so a
      repetition or a beat arriving afterwards finds a finished session. */
  function Restart(a: AppState): (r: AppState)
    ensures Pose.Valid(a.detector) ==> Pose.Valid(r.detector)
    ensures !r.detector.isCalibrated && r.detector.current.squatCount == 0 && r.detector.samples == []
    ensures a.sergeant.Some? <==> r.sergeant.Some?
    ensures r.sergeant.Some? ==>
      r.sergeant.value.isFinished && !r.sergeant.value.tempo.isRunning
      && r.sergeant.value.currentCount == a.sergeant.value.currentCount
    ensures r.goal == a.goal
  {
    assert Pose.Valid(a.detector) ==>
      Pose.CalibrationValid(a.detector.isCalibrated, a.detector.calibration,
                            a.detector.samples, a.detector.calibrationProgress);
    var stopped := if a.sergeant.Some? then Some(Drill.Stop(a.sergeant.value)) else None;
    AppState(Pose.ResetCalibration(a.detector), stopped, a.goal)
  }

  /** After restart, late repetition events are dropped and the clock is silent. */
  lemma RestartSilencesSession(a: AppState, e: Pose.RepEvent, now: int, draw: nat)
    requires a.sergeant.Some?
    ensures var s := Restart(a).sergeant.value;
      && OnSquatComplete(s, e, draw) == Forwarded(s, None, None, false)
      && Drill.BeatStep(s, now, draw).tick.None?
  {
  }
}

=== FILE: base.dfy ===
/** Small shared vocabulary: an optional value and the handful of JavaScript
    numeric operations whose exact meaning the model depends on. */
module Base {

  /** A value that may be absent (JavaScript `undefined`, `null`, or a callback
      that was not fired). */
  datatype Option<+T> = None | Some(value: T)

  function MinReal(a: real, b: real): (r: real)
    ensures r <= a && r <= b
    ensures r == a || r == b
  {
    if a <= b then a else b
  }

  function MaxReal(a: real, b: real): (r: real)
    ensures r >= a && r >= b
    ensures r == a || r == b
  {
    if a >= b then a else b
  }

  /** `Math.max(0, Math.min(1, x))`: the nearest point of [0, 1] to `x`. */
  function Clamp01(x: real): (r: real)
    ensures 0.0 <= r <= 1.0
    ensures 0.0 <= x <= 1.0 ==> r == x
    ensures x < 0.0 ==> r == 0.0
    ensures x > 1.0 ==> r == 1.0
  {
    MaxReal(0.0, MinReal(1.0, x))
  }

  /** JavaScript's integer quotient `Math.trunc(a / b)`, rounding toward zero. */
  function JsQuot(a: int, b: int): int
    requires b > 0
  {
    if a >= 0 then a / b else -((-a) / b)
  }

  /** JavaScript's `a % b`, which truncates toward zero: the remainder takes the
      sign of the dividend (unlike Dafny's Euclidean `%`). */
  function JsRem(a: int, b: int): (r: int)
    requires b > 0
    ensures a >= 0 ==> 0 <= r < b
    ensures a < 0 ==> -b < r <= 0
    ensures a == JsQuot(a, b) * b + r
  {
    if a >= 0 then a % b else -((-a) % b)
  }

  /** `Math.ceil(m / k)` for integer `m` and positive integer `k`: the least
      integer `r` with `m <= r * k`. */
  function CeilDiv(m: int, k: int): (r: int)
    requires k > 0
    ensures (r - 1) * k < m <= r * k
  {
    var q := (m + k - 1) / k;
    assert q * k + (m + k - 1) % k == m + k - 1;
    q
  }
}

=== FILE: drill.dfy ===
/** The drill sergeant (sergeant.js, class DrillSergeant): a virtual 9-beat
    metronome, the "behind tempo" warning, the goal / extra-goal / finish
    lifecycle driven by repetition events, and message selection that never
    repeats the previous line of a pool.

    Wall-clock time arrives as `now` (integer milliseconds). Random draws arrive
    as parameters: `k` for the extra repetitions and `draw` for a message choice. */
module Drill {
  import opened Base
  import Pose

  const BeatInterval: int := 1000
  const BeatsPerSquat: int := 9
  /** The descent takes five beats; the other four of the bar are the ascent. */
  const BeatsDown: int := 5
  const MinExtraReps: int := 5
  /** `Math.floor(Math.random() * 16)` ranges over 0..15. */
  const ExtraRepsSpan: int := 16

  datatype Tempo = Tempo(currentBeat: int, lastBeatTime: int, isRunning: bool, expectedSquatBeat: int)

  /** The message pools of the sergeant. */
  datatype MessageKind =
    | ShallowLines | DeepLines | MediumLines | SlowLines
    | AfterGoalLines | FinishLines | StartLines | CountdownLines

  datatype Sergeant = Sergeant(
    tempo: Tempo,
    goal: int,
    extraReps: int,
    actualGoal: int,
    currentCount: int,
    lastSquatBeat: int,
    missedBeats: nat,
    isFinished: bool,
    isExtraTraining: bool,
    lastSlowWarningBeat: int,
    messages: map<MessageKind, seq<string>>,
    lastMessageIndex: map<MessageKind, nat>)

  /** The constructor's state over the given message pools. */
  function NewSergeant(messages: map<MessageKind, seq<string>>): (s: Sergeant)
    ensures !s.tempo.isRunning && !s.isFinished && s.tempo.currentBeat == 0
    ensures s.goal == 20 && s.extraReps == 0 && s.actualGoal == 0
    // nothing counted, missed or warned yet, and not in the extra phase
    ensures s.currentCount == 0 && s.lastSquatBeat == 0 && s.missedBeats == 0
    ensures !s.isExtraTraining && s.lastSlowWarningBeat == 0
    // the given pools, with no line chosen from any of them
    ensures s.messages == messages && s.lastMessageIndex == map[]
  {
    Sergeant(Tempo(0, 0, false, BeatsPerSquat), 20, 0, 0, 0, 0, 0, false, false, 0, messages, map[])
  }

  /** The goal fields as setGoal leaves them: between 5 and 20 extra
      repetitions on top of the announced goal. */
  predicate GoalSet(s: Sergeant) {
    && MinExtraReps <= s.extraReps <= MinExtraReps + ExtraRepsSpan - 1
    && s.actualGoal == s.goal + s.extraReps
  }

  /** The goal fields are the same in both states. */
  predicate SameGoal(a: Sergeant, b: Sergeant) {
    a.goal == b.goal && a.extraReps == b.extraReps && a.actualGoal == b.actualGoal
  }

  /** setGoal, with the random offset `k` injected. */
  function SetGoal(s: Sergeant, goal: int, k: int): (r: Sergeant)
    requires 0 <= k < ExtraRepsSpan
    ensures GoalSet(r) && r.goal == goal
    ensures 5 <= r.actualGoal - goal <= 20 && r.actualGoal > goal
    ensures r.extraReps == k + MinExtraReps
    // only the three goal fields change
    ensures r == s.(goal := r.goal, extraReps := r.extraReps, actualGoal := r.actualGoal)
    ensures r.tempo == s.tempo && r.currentCount == s.currentCount && r.isFinished == s.isFinished
  {
    s.(goal := goal, extraReps := k + MinExtraReps, actualGoal := goal + k + MinExtraReps)
  }

  // ---------------------------------------------------------------------
  // Message selection
  // ---------------------------------------------------------------------

  /** A uniform draw over the indices of a pool of `n >= 2` lines, excluding
      the previous choice: the draw is folded onto the `n - 1` allowed indices
      (or onto all `n` when there is no previous choice). */
  function ChooseIndex(n: nat, last: Option<nat>, draw: nat): (i: nat)
    requires n >= 2
    ensures i < n
    ensures last.Some? ==> i != last.value
  {
    if last.Some? && last.value < n then
      var c := draw % (n - 1);
      if c >= last.value then c + 1 else c
    else
      draw % n
  }

  /** Every index other than the previous choice is drawn by some draw, so the
      choice ranges over exactly the allowed indices. */
  lemma ChooseIndexReachesAll(n: nat, last: Option<nat>, i: nat)
    requires n >= 2 && i < n
    requires last.Some? ==> i != last.value
    ensures exists draw :: ChooseIndex(n, last, draw) == i
  {
    if last.Some? && last.value < n {
      var draw := if i > last.value then i - 1 else i;
      SmallRemainder(draw, n - 1);
      assert ChooseIndex(n, last, draw) == i;
    } else {
      SmallRemainder(i, n);
      assert ChooseIndex(n, last, i) == i;
    }
  }

  lemma SmallRemainder(x: nat, m: nat)
    requires x < m
    ensures x % m == x
  {
    assert x == 0 * m + x;
  }

  function LastIndex(s: Sergeant, kind: MessageKind): Option<nat> {
    if kind in s.lastMessageIndex then Some(s.lastMessageIndex[kind]) else None
  }

  /** The two states agree on the last line chosen from every pool but `kind`. */
  predicate HistoryKeptExcept(a: Sergeant, b: Sergeant, kind: MessageKind) {
    forall k :: k != kind ==> LastIndex(b, k) == LastIndex(a, k)
  }

  datatype MessagePick = MessagePick(sergeant: Sergeant, text: string)

  /** `text` is a line of pool `kind`, or the empty text when that pool is
      unknown or empty. */
  predicate FromPool(s: Sergeant, kind: MessageKind, text: string) {
    if kind in s.messages && |s.messages[kind]| > 0 then text in s.messages[kind] else text == ""
  }

  /** getRandomMessage, without the `{count}` template substitution. */
  function GetRandomMessage(s: Sergeant, kind: MessageKind, draw: nat): (r: MessagePick)
    // an unknown or empty pool yields the empty text and changes nothing
    ensures kind !in s.messages || |s.messages[kind]| == 0 ==> r == MessagePick(s, "")
    ensures kind in s.messages && |s.messages[kind]| > 0 ==>
      var pool := s.messages[kind];
      && kind in r.sergeant.lastMessageIndex
      && var i := r.sergeant.lastMessageIndex[kind];
      && i < |pool|
      && r.text == pool[i]
      && (|pool| == 1 ==> i == 0)
      && (|pool| > 1 && kind in s.lastMessageIndex ==> i != s.lastMessageIndex[kind])
      // only the record of the last choice for this pool changes
      && r.sergeant == s.(lastMessageIndex := s.lastMessageIndex[kind := i])
  {
    if kind !in s.messages || |s.messages[kind]| == 0 then MessagePick(s, "")
    else
      var pool := s.messages[kind];
      var i := if |pool| == 1 then 0 else ChooseIndex(|pool|, LastIndex(s, kind), draw);
      MessagePick(s.(lastMessageIndex := s.lastMessageIndex[kind := i]), pool[i])
  }

  // ---------------------------------------------------------------------
  // Session start and the beat clock
  // ---------------------------------------------------------------------

  datatype StartResult = StartResult(sergeant: Sergeant, message: string)

  /** start: counters and flags back to their initial values, the clock armed
      at `now`, and an opening line chosen. */
  function Start(s: Sergeant, now: int, draw: nat): (r: StartResult)
    ensures var t := r.sergeant;
      && t.currentCount == 0 && t.lastSquatBeat == 0 && t.missedBeats == 0
      && !t.isFinished && !t.isExtraTraining && t.lastSlowWarningBeat == 0
      && t.tempo == Tempo(0, now, true, BeatsPerSquat)
      && SameGoal(s, t) && t.messages == s.messages
    ensures FromPool(s, StartLines, r.message) && HistoryKeptExcept(s, r.sergeant, StartLines)
  {
    var s1 := s.(currentCount := 0, lastSquatBeat := 0, missedBeats := 0, isFinished := false,
                 isExtraTraining := false, lastSlowWarningBeat := 0,
                 tempo := Tempo(0, now, true, BeatsPerSquat));
    var pick := GetRandomMessage(s1, StartLines, draw);
    StartResult(pick.sergeant, pick.text)
  }

  /** The position of a beat within its 9-beat bar, computed as the source
      does with a truncating remainder. */
  function BeatInBar(beat: int): (b: int)
    ensures beat >= 1 ==> 1 <= b <= BeatsPerSquat && (beat - b) % BeatsPerSquat == 0
  {
    JsRem(beat - 1, BeatsPerSquat) + 1
  }

  /** Beats 1 and 6 of the bar are accented: from the first beat on, a beat is
      strong exactly when it opens the five-beat descent or the four-beat ascent. */
  function IsStrong(beat: int): (strong: bool)
    ensures beat >= 1 ==>
      (strong <==> (beat - 1) % BeatsPerSquat == 0 || (beat - 1) % BeatsPerSquat == BeatsDown)
  {
    var b := BeatInBar(beat);
    b == 1 || b == 6
  }

  /** The bar repeats every nine beats, and with it the accents. */
  lemma BarRepeatsEveryNineBeats(beat: int)
    requires beat >= 1
    ensures BeatInBar(beat + BeatsPerSquat) == BeatInBar(beat)
    ensures IsStrong(beat + BeatsPerSquat) == IsStrong(beat)
  {
  }

  datatype Tick = Tick(beat: int, isStrong: bool)

  datatype BeatResult = BeatResult(sergeant: Sergeant, tick: Option<Tick>, warning: Option<string>)

  /** The behind-tempo condition on the beat just reached: at least one
      repetition done, at least one whole bar behind the bar count, and a full
      bar since the previous warning. */
  function WarningDue(beat: int, count: int, lastWarning: int): (due: bool)
    // being a whole bar behind means the beat has reached the bar after `count` bars
    ensures due <==> count > 0 && beat >= (count + 1) * BeatsPerSquat && beat - lastWarning >= BeatsPerSquat
  {
    && count > 0
    && beat / BeatsPerSquat - count >= 1
    && beat - lastWarning >= BeatsPerSquat
  }

  /** One pass of beatLoop at time `now` (the animation-frame rescheduling is
      left to the caller). */
  function BeatStep(s: Sergeant, now: int, draw: nat): (r: BeatResult)
    ensures !s.tempo.isRunning || s.isFinished ==> r == BeatResult(s, None, None)
    ensures s.tempo.isRunning && !s.isFinished && now - s.tempo.lastBeatTime < BeatInterval ==>
      r == BeatResult(s, None, None)
    ensures r.tick.Some? <==> s.tempo.isRunning && !s.isFinished && now - s.tempo.lastBeatTime >= BeatInterval
    // at most one beat per check, stamped with the check's own time
    ensures r.tick.Some? ==>
      && r.sergeant.tempo == s.tempo.(currentBeat := s.tempo.currentBeat + 1, lastBeatTime := now)
      && r.tick.value == Tick(r.sergeant.tempo.currentBeat, IsStrong(r.sergeant.tempo.currentBeat))
    ensures r.warning.Some? <==>
      r.tick.Some? && WarningDue(r.sergeant.tempo.currentBeat, s.currentCount, s.lastSlowWarningBeat)
    ensures r.warning.Some? ==>
      && r.sergeant.lastSlowWarningBeat == r.sergeant.tempo.currentBeat
      && r.sergeant.missedBeats == s.missedBeats + 1
      && FromPool(s, SlowLines, r.warning.value)
    ensures r.warning.None? ==>
      r.sergeant.lastSlowWarningBeat == s.lastSlowWarningBeat && r.sergeant.missedBeats == s.missedBeats
    // the pools are kept, and only a warning records a choice, from the slow pool alone
    ensures r.sergeant.messages == s.messages
    ensures r.warning.None? ==> r.sergeant.lastMessageIndex == s.lastMessageIndex
    ensures HistoryKeptExcept(s, r.sergeant, SlowLines)
    ensures SameGoal(s, r.sergeant) && r.sergeant.currentCount == s.currentCount
    ensures r.sergeant.isFinished == s.isFinished && r.sergeant.isExtraTraining == s.isExtraTraining
  {
    if !s.tempo.isRunning || s.isFinished then BeatResult(s, None, None)
    else
      var elapsed := now - s.tempo.lastBeatTime;
      if elapsed >= BeatInterval then
        var beat := s.tempo.currentBeat + 1;
        var s1 := s.(tempo := s.tempo.(lastBeatTime := now, currentBeat := beat));
        var tick := Tick(beat, IsStrong(beat));
        if WarningDue(beat, s1.currentCount, s1.lastSlowWarningBeat) then
          var pick := GetRandomMessage(s1, SlowLines, draw);
          BeatResult(pick.sergeant.(lastSlowWarningBeat := beat, missedBeats := s.missedBeats + 1),
                     Some(tick), Some(pick.text))
        else
          BeatResult(s1, Some(tick), None)
      else
        BeatResult(s, None, None)
  }

  /** start runs one beatLoop pass at once; at the start time it never ticks. */
  lemma StartDoesNotTick(s: Sergeant, now: int, draw: nat, draw2: nat)
    ensures var t := Start(s, now, draw).sergeant;
      BeatStep(t, now, draw2) == BeatResult(t, None, None)
  {
  }

  /** After start, the clock opens the first bar: a check ticks exactly once a
      full beat interval has passed, the first tick is beat 1 and accented, and
      no behind-tempo warning can come before a repetition. */
  lemma StartOpensFirstBar(s: Sergeant, now: int, elapsed: int, draw: nat, draw2: nat)
    ensures var t := Start(s, now, draw).sergeant;
      var b := BeatStep(t, now + elapsed, draw2);
      && (b.tick.Some? <==> elapsed >= BeatInterval)
      && (b.tick.Some? ==> b.tick.value == Tick(1, true) && b.sergeant.tempo.currentBeat == 1)
      && b.warning.None?
  {
  }

  /** One call of beatLoop: the time of the check and the random draw for a warning line. */
  datatype BeatInput = BeatInput(now: int, draw: nat)

  datatype BeatRun = BeatRun(sergeant: Sergeant, ticks: seq<Tick>, warnings: seq<int>)

  /** Runs beatLoop over a sequence of checks, collecting ticks and the beats
      at which a warning was given. */
  function RunBeats(s: Sergeant, inputs: seq<BeatInput>): BeatRun
    decreases |inputs|
  {
    if |inputs| == 0 then BeatRun(s, [], [])
    else
      var step := BeatStep(s, inputs[0].now, inputs[0].draw);
      var rest := RunBeats(step.sergeant, inputs[1..]);
      var ticks := if step.tick.Some? then [step.tick.value] + rest.ticks else rest.ticks;
      var warnings := if step.warning.Some? then [step.sergeant.tempo.currentBeat] + rest.warnings else rest.warnings;
      BeatRun(rest.sergeant, ticks, warnings)
  }

  /** Over any run of checks: beats are numbered consecutively, never more
      than one per check; warnings come at least a full bar apart, starting a
      full bar after the previous one; and the last warning is remembered. */
  lemma {:induction false} BeatRunProperties(s: Sergeant, inputs: seq<BeatInput>)
    ensures var r := RunBeats(s, inputs);
      && |r.ticks| <= |inputs|
      && r.sergeant.tempo.currentBeat == s.tempo.currentBeat + |r.ticks|
      && (forall i :: 0 <= i < |r.ticks| ==> r.ticks[i].beat == s.tempo.currentBeat + i + 1)
      && (|r.warnings| > 0 ==> r.warnings[0] - s.lastSlowWarningBeat >= BeatsPerSquat)
      && (forall i :: 0 < i < |r.warnings| ==> r.warnings[i] - r.warnings[i - 1] >= BeatsPerSquat)
      && (|r.warnings| > 0 ==> r.sergeant.lastSlowWarningBeat == r.warnings[|r.warnings| - 1])
      && (|r.warnings| == 0 ==> r.sergeant.lastSlowWarningBeat == s.lastSlowWarningBeat)
      && r.sergeant.missedBeats == s.missedBeats + |r.warnings|
    decreases |inputs|
  {
    if |inputs| > 0 {
      var step := BeatStep(s, inputs[0].now, inputs[0].draw);
      BeatRunProperties(step.sergeant, inputs[1..]);
    }
  }

  /** A run of beat checks keeps the pools, the goal, the count and the
      finished flag, and records choices from the slow pool alone. */
  lemma {:induction false} BeatRunKeepsPools(s: Sergeant, inputs: seq<BeatInput>)
    ensures var t := RunBeats(s, inputs).sergeant;
      && t.messages == s.messages && HistoryKeptExcept(s, t, SlowLines)
      && SameGoal(s, t) && t.currentCount == s.currentCount && t.isFinished == s.isFinished
    decreases |inputs|
  {
    if |inputs| > 0 {
      var step := BeatStep(s, inputs[0].now, inputs[0].draw);
      BeatRunKeepsPools(step.sergeant, inputs[1..]);
    }
  }

  // ---------------------------------------------------------------------
  // Repetitions, finish and stop
  // ---------------------------------------------------------------------

  datatype FinishEvent = FinishEvent(count: int, message: string)

  datatype FinishResult = FinishResult(sergeant: Sergeant, event: FinishEvent)

  /** finish. Unlike the rest of the lifecycle it does not check isFinished
      itself; its only caller does. */
  function Finish(s: Sergeant, draw: nat): (r: FinishResult)
    ensures r.sergeant.isFinished && !r.sergeant.tempo.isRunning
    ensures r.event.count == s.currentCount
    ensures r.sergeant.currentCount == s.currentCount && SameGoal(s, r.sergeant)
    ensures r.sergeant.isExtraTraining == s.isExtraTraining
    ensures FromPool(s, FinishLines, r.event.message)
    ensures r.sergeant.messages == s.messages && HistoryKeptExcept(s, r.sergeant, FinishLines)
    ensures r.sergeant.lastSlowWarningBeat == s.lastSlowWarningBeat && r.sergeant.missedBeats == s.missedBeats
  {
    var s1 := s.(isFinished := true, tempo := s.tempo.(isRunning := false));
    var pick := GetRandomMessage(s1, FinishLines, draw);
    FinishResult(pick.sergeant, FinishEvent(s.currentCount, pick.text))
  }

  /** stop. */
  function Stop(s: Sergeant): (r: Sergeant)
    ensures r.isFinished && !r.tempo.isRunning
    ensures r.currentCount == s.currentCount && SameGoal(s, r)
  {
    s.(tempo := s.tempo.(isRunning := false), isFinished := true)
  }

  /** The pool a repetition's grade draws from. */
  function LinesFor(c: Pose.Category): MessageKind {
    match c
    case Shallow => ShallowLines
    case Deep => DeepLines
    case Medium => MediumLines
  }

  /** What a repetition makes the sergeant say aloud: a line (with `priority`
      cutting off queued speech), a line in the angry voice, or only the count. */
  datatype Speech = SayLine(text: string, priority: bool) | SayAngry(text: string) | SayCount(count: int)

  datatype SquatResult = SquatResult(
    sergeant: Sergeant,
    message: Option<string>,
    speech: Option<Speech>,
    extraTraining: Option<int>,
    finished: Option<FinishEvent>)

  /** handleSquatComplete (`depth` is accepted and unused, as in the source). */
  function HandleSquatComplete(s: Sergeant, count: int, category: Pose.Category, depth: real, draw: nat): (r: SquatResult)
    ensures s.isFinished ==> r == SquatResult(s, None, None, None, None)
    ensures !s.isFinished ==>
      && r.sergeant.currentCount == count
      && r.sergeant.lastSquatBeat == s.tempo.currentBeat
      && SameGoal(s, r.sergeant)
      // the behind-tempo bookkeeping and the pools are the beat clock's alone
      && r.sergeant.lastSlowWarningBeat == s.lastSlowWarningBeat
      && r.sergeant.missedBeats == s.missedBeats
      && r.sergeant.messages == s.messages
    // reaching the goal opens the extra phase and never finishes on the same event
    ensures !s.isFinished && count == s.goal ==>
      && r.sergeant.isExtraTraining && !r.sergeant.isFinished && r.finished.None?
      && r.extraTraining == Some(s.extraReps) && r.message.Some?
      && r.speech == Some(SayLine(r.message.value, true))
      && FromPool(s, AfterGoalLines, r.message.value)
      && HistoryKeptExcept(s, r.sergeant, AfterGoalLines)
      && r.sergeant.tempo == s.tempo
    // reaching the real goal finishes, with the final count
    ensures !s.isFinished && count != s.goal && count >= s.actualGoal ==>
      && r.sergeant.isFinished && !r.sergeant.tempo.isRunning
      && r.finished.Some? && r.finished.value.count == count
      && FromPool(s, FinishLines, r.finished.value.message)
      && HistoryKeptExcept(s, r.sergeant, FinishLines)
      && r.message.None? && r.speech.None? && r.extraTraining.None?
    // otherwise a line from the pool of the repetition's grade
    ensures !s.isFinished && count != s.goal && count < s.actualGoal ==>
      && !r.sergeant.isFinished && r.finished.None? && r.extraTraining.None?
      && r.sergeant.isExtraTraining == s.isExtraTraining
      && r.sergeant.tempo == s.tempo
      && r.message.Some?
      // a shallow line is shouted; after a medium or deep one only the count is spoken
      && (category == Pose.Shallow ==> r.speech == Some(SayAngry(r.message.value)))
      && (category != Pose.Shallow ==> r.speech == Some(SayCount(count)))
      && FromPool(s, LinesFor(category), r.message.value)
      && HistoryKeptExcept(s, r.sergeant, LinesFor(category))
    ensures r.finished.Some? ==> !s.isFinished && r.sergeant.isFinished
  {
    if s.isFinished then SquatResult(s, None, None, None, None)
    else
      var s1 := s.(currentCount := count, lastSquatBeat := s.tempo.currentBeat);
      if count == s.goal then
        var pick := GetRandomMessage(s1.(isExtraTraining := true), AfterGoalLines, draw);
        SquatResult(pick.sergeant, Some(pick.text), Some(SayLine(pick.text, true)), Some(s.extraReps), None)
      else if count >= s.actualGoal then
        var f := Finish(s1, draw);
        SquatResult(f.sergeant, None, None, None, Some(f.event))
      else
        var pick := GetRandomMessage(s1, LinesFor(category), draw);
        var speech := if category == Pose.Shallow then SayAngry(pick.text) else SayCount(count);
        SquatResult(pick.sergeant, Some(pick.text), Some(speech), None, None)
  }

  /** Two graded repetitions of the same grade, with any run of beat checks
      between them, never show the same line of a pool of two or more lines. */
  lemma GradedLineNeverRepeats(s: Sergeant, c1: int, c2: int, category: Pose.Category,
                               depth1: real, depth2: real, draw1: nat, draw2: nat, inputs: seq<BeatInput>)
    requires !s.isFinished
    requires c1 != s.goal && c1 < s.actualGoal && c2 != s.goal && c2 < s.actualGoal
    requires LinesFor(category) in s.messages && |s.messages[LinesFor(category)]| >= 2
    ensures var kind := LinesFor(category);
      var r1 := HandleSquatComplete(s, c1, category, depth1, draw1);
      var r2 := HandleSquatComplete(RunBeats(r1.sergeant, inputs).sergeant, c2, category, depth2, draw2);
      && kind in r1.sergeant.lastMessageIndex && kind in r2.sergeant.lastMessageIndex
      && r2.sergeant.lastMessageIndex[kind] != r1.sergeant.lastMessageIndex[kind]
  {
    var kind := LinesFor(category);
    var r1 := HandleSquatComplete(s, c1, category, depth1, draw1);
    BeatRunKeepsPools(r1.sergeant, inputs);
    var t := RunBeats(r1.sergeant, inputs).sergeant;
    assert LastIndex(t, kind) == LastIndex(r1.sergeant, kind);
  }

  /** getExtraRemaining. */
  function GetExtraRemaining(s: Sergeant): (n: int)
    ensures n >= 0
    ensures !s.isExtraTraining ==> n == 0
    ensures s.isExtraTraining && s.currentCount <= s.actualGoal ==> n + s.currentCount == s.actualGoal
    ensures s.isExtraTraining && s.currentCount >= s.actualGoal ==> n == 0
  {
    if !s.isExtraTraining then 0
    else if s.actualGoal - s.currentCount >= 0 then s.actualGoal - s.currentCount
    else 0
  }

  /** Entering the extra phase leaves exactly the hidden extra repetitions to do. */
  lemma ExtraPhaseLeavesExtraReps(s: Sergeant, category: Pose.Category, depth: real, draw: nat)
    requires GoalSet(s) && !s.isFinished
    ensures var r := HandleSquatComplete(s, s.goal, category, depth, draw).sergeant;
      GetExtraRemaining(r) == s.extraReps && GetExtraRemaining(r) >= MinExtraReps
  {
  }

  /** After finish or stop, the clock never ticks and repetitions change nothing. */
  lemma FinishedIsInert(s: Sergeant, now: int, draw: nat, count: int, category: Pose.Category, depth: real)
    requires s.isFinished
    ensures BeatStep(s, now, draw) == BeatResult(s, None, None)
    ensures HandleSquatComplete(s, count, category, depth, draw) == SquatResult(s, None, None, None, None)
  {
  }

  /** The worked example: goal 20 with seven hidden extra repetitions. The
      twentieth repetition opens the extra phase, the twenty-first to
      twenty-sixth get ordinary graded lines, and the twenty-seventh finishes. */
  lemma GoalTwentyExample(s: Sergeant, c: Pose.Category, depth: real, draw: nat)
    requires !s.isFinished
    ensures var t := SetGoal(s, 20, 2);
      && t.extraReps == 7 && t.actualGoal == 27
      && HandleSquatComplete(t, 20, c, depth, draw).extraTraining == Some(7)
      && !HandleSquatComplete(t, 20, c, depth, draw).sergeant.isFinished
      && (forall n :: 20 < n < 27 ==>
            HandleSquatComplete(t, n, c, depth, draw).finished.None?
            && HandleSquatComplete(t, n, c, depth, draw).extraTraining.None?)
      && HandleSquatComplete(t, 27, c, depth, draw).finished.Some?
  {
  }

  /** One repetition event as delivered to handleSquatComplete, with its draw. */
  datatype RepInput = RepInput(count: int, category: Pose.Category, depth: real, draw: nat)

  datatype RepRun = RepRun(sergeant: Sergeant, finishes: seq<FinishEvent>)

  function RunReps(s: Sergeant, reps: seq<RepInput>): RepRun
    decreases |reps|
  {
    if |reps| == 0 then RepRun(s, [])
    else
      var step := HandleSquatComplete(s, reps[0].count, reps[0].category, reps[0].depth, reps[0].draw);
      var rest := RunReps(step.sergeant, reps[1..]);
      match step.finished
      case None => rest
      case Some(e) => RepRun(rest.sergeant, [e] + rest.finishes)
  }

  /** However many repetition events arrive, the session finishes at most
      once, never again once finished, and stays finished. */
  lemma {:induction false} FinishAtMostOnce(s: Sergeant, reps: seq<RepInput>)
    ensures |RunReps(s, reps).finishes| <= 1
    ensures s.isFinished ==> RunReps(s, reps) == RepRun(s, [])
    ensures s.isFinished || |RunReps(s, reps).finishes| == 1 ==> RunReps(s, reps).sergeant.isFinished
    decreases |reps|
  {
    if |reps| > 0 {
      var step := HandleSquatComplete(s, reps[0].count, reps[0].category, reps[0].depth, reps[0].draw);
      FinishAtMostOnce(step.sergeant, reps[1..]);
    }
  }
}

=== FILE: pose.dfy ===
/** The pose detector of the squat drill (pose.js, class PoseDetector): the
    full-body visibility gate, the standing-posture calibration state machine,
    the two-state hysteresis repetition counter with depth grading, and the
    per-frame routing between calibration and counting.

    Keypoint coordinates are exact reals (normalised image coordinates, y grows
    downward) and time is integer milliseconds passed in as `now`. */
module Pose {
  import opened Base

  // ---------------------------------------------------------------------
  // Landmarks and the visibility gate
  // ---------------------------------------------------------------------

  /** One keypoint of the estimator's output. */
  datatype Landmark = Landmark(x: real, y: real, visibility: real)

  /** A frame of landmarks, keyed by the estimator's landmark index; an index
      that is not a key is a point the estimator did not deliver. */
  type Frame = map<int, Landmark>

  /** The eight points a full-body frame must show. */
  datatype Joint =
    | LeftShoulder | RightShoulder
    | LeftHip | RightHip
    | LeftKnee | RightKnee
    | LeftAnkle | RightAnkle
  {
    /** The landmark index of this joint in the estimator's numbering. */
    function Index(): int {
      match this
      case LeftShoulder => 11
      case RightShoulder => 12
      case LeftHip => 23
      case RightHip => 24
      case LeftKnee => 25
      case RightKnee => 26
      case LeftAnkle => 27
      case RightAnkle => 28
    }
  }

  /** The required points in the order the source walks them (ascending index). */
  const Required: seq<Joint> :=
    [LeftShoulder, RightShoulder, LeftHip, RightHip, LeftKnee, RightKnee, LeftAnkle, RightAnkle]

  const MinVisibility: real := 0.5

  /** A required joint is missing when its point is absent or not confident enough. */
  predicate IsMissing(frame: Frame, j: Joint) {
    j.Index() !in frame || frame[j.Index()].visibility < MinVisibility
  }

  /** Strictly increasing landmark indices: each joint listed once, in index order. */
  predicate IndexOrdered(js: seq<Joint>) {
    forall i, k :: 0 <= i < k < |js| ==> js[i].Index() < js[k].Index()
  }

  datatype BodyCheck = BodyCheck(isFullBody: bool, missing: seq<Joint>)

  /** The joints of `js` that are missing from `frame`, in the order of `js`. */
  function MissingAmong(frame: Frame, js: seq<Joint>): (m: seq<Joint>)
    ensures forall j :: j in m <==> j in js && IsMissing(frame, j)
    ensures IndexOrdered(js) ==> IndexOrdered(m)
  {
    if |js| == 0 then []
    else
      var rest := MissingAmong(frame, js[1..]);
      OrderedTail(js);
      if IsMissing(frame, js[0]) then [js[0]] + rest else rest
  }

  /** The tail of an ordered list is ordered and lies above its head. */
  lemma OrderedTail(js: seq<Joint>)
    requires |js| > 0
    ensures forall j :: j in js[1..] ==> j in js
    ensures IndexOrdered(js) ==> IndexOrdered(js[1..])
    ensures IndexOrdered(js) ==> forall j :: j in js[1..] ==> js[0].Index() < j.Index()
  {
    if IndexOrdered(js) {
      forall j | j in js[1..] ensures js[0].Index() < j.Index() {
        var k :| 0 <= k < |js[1..]| && js[1..][k] == j;
        assert js[k + 1] == j;
      }
    }
  }

  lemma EveryJointRequired()
    ensures forall j: Joint :: j in Required
  {
    forall j: Joint ensures j in Required {
      match j
      case LeftShoulder => assert Required[0] == j;
      case RightShoulder => assert Required[1] == j;
      case LeftHip => assert Required[2] == j;
      case RightHip => assert Required[3] == j;
      case LeftKnee => assert Required[4] == j;
      case RightKnee => assert Required[5] == j;
      case LeftAnkle => assert Required[6] == j;
      case RightAnkle => assert Required[7] == j;
    }
  }

  /** The required joints are listed in ascending landmark index. */
  lemma RequiredOrdered()
    ensures IndexOrdered(Required)
  {
  }

  /** checkFullBodyVisibility: the frame is full-body exactly when no required
      joint is missing, and the missing list names every missing joint once. */
  function CheckFullBodyVisibility(frame: Frame): (r: BodyCheck)
    ensures r.isFullBody <==> |r.missing| == 0
    ensures forall j :: j in r.missing <==> IsMissing(frame, j)
    ensures IndexOrdered(r.missing)
  {
    var missing := MissingAmong(frame, Required);
    EveryJointRequired();
    RequiredOrdered();
    if |missing| > 0 then
      assert missing[0] in missing;
      BodyCheck(false, missing)
    else
      BodyCheck(true, missing)
  }

  /** A frame is full-body exactly when none of the eight joints is missing. */
  lemma FullBodyIffNothingMissing(frame: Frame)
    ensures CheckFullBodyVisibility(frame).isFullBody <==> forall j :: !IsMissing(frame, j)
  {
    var r := CheckFullBodyVisibility(frame);
    if !r.isFullBody {
      assert r.missing[0] in r.missing;
    }
  }

  /** A full-body frame carries both hips and both knees. */
  lemma FullBodyHasHipsAndKnees(frame: Frame)
    requires CheckFullBodyVisibility(frame).isFullBody
    ensures 23 in frame && 24 in frame && 25 in frame && 26 in frame
  {
    FullBodyIffNothingMissing(frame);
    assert !IsMissing(frame, LeftHip) && !IsMissing(frame, RightHip);
    assert !IsMissing(frame, LeftKnee) && !IsMissing(frame, RightKnee);
  }

  // ---------------------------------------------------------------------
  // Calibration arithmetic
  // ---------------------------------------------------------------------

  /** One accepted standing sample: the mean hip and mean knee heights. */
  datatype Sample = Sample(hipY: real, kneeY: real)

  const RequiredSamples: nat := 30
  const WaitTime: int := 2000
  /** Minimum knee-below-hip gap for a frame to count as standing upright. */
  const StandingGap: real := 0.15
  const SquatFactor: real := 0.15
  const DeepSquatFactor: real := 0.4

  predicate IsStanding(s: Sample) {
    s.kneeY - s.hipY > StandingGap
  }

  predicate AllStanding(ss: seq<Sample>) {
    forall i :: 0 <= i < |ss| ==> IsStanding(ss[i])
  }

  /** Sums in the order of the source's left-to-right reduce. */
  function SumHip(ss: seq<Sample>): real {
    if |ss| == 0 then 0.0 else SumHip(ss[..|ss| - 1]) + ss[|ss| - 1].hipY
  }

  function SumKnee(ss: seq<Sample>): real {
    if |ss| == 0 then 0.0 else SumKnee(ss[..|ss| - 1]) + ss[|ss| - 1].kneeY
  }

  /** Every standing sample contributes more than the standing gap to the
      knee-minus-hip total. */
  lemma {:induction false} StandingSumsExceedGap(ss: seq<Sample>)
    requires AllStanding(ss)
    ensures SumKnee(ss) - SumHip(ss) >= StandingGap * (|ss| as real)
    ensures |ss| > 0 ==> SumKnee(ss) - SumHip(ss) > StandingGap * (|ss| as real)
  {
    if |ss| > 0 {
      var init := ss[..|ss| - 1];
      assert AllStanding(init) by {
        forall i | 0 <= i < |init| ensures IsStanding(init[i]) {
          assert init[i] == ss[i];
        }
      }
      StandingSumsExceedGap(init);
      assert IsStanding(ss[|ss| - 1]);
    }
  }

  /** Over standing samples, mean knee minus mean hip exceeds the standing gap. */
  lemma MeanLegExceedsGap(ss: seq<Sample>)
    requires |ss| > 0
    ensures AllStanding(ss) ==> SumKnee(ss) / (|ss| as real) - SumHip(ss) / (|ss| as real) > StandingGap
  {
    if AllStanding(ss) {
      var n := |ss| as real;
      var leg := SumKnee(ss) / n - SumHip(ss) / n;
      StandingSumsExceedGap(ss);
      assert leg * n == SumKnee(ss) - SumHip(ss);
      if leg <= StandingGap {
        assert leg * n <= StandingGap * n;
      }
    }
  }

  /** The calibration record: standing heights and the two depth thresholds. */
  datatype Baseline = Baseline(
    standingHipY: real,
    standingKneeY: real,
    squatThreshold: real,
    deepSquatThreshold: real)

  /** completeCalibration: the arithmetic means of the samples, and thresholds
      scaled from the leg length (mean knee minus mean hip). Over standing
      samples the leg is longer than the standing gap, so the thresholds are
      positive and ordered. */
  function BaselineOf(ss: seq<Sample>): (b: Baseline)
    requires |ss| > 0
    ensures b.squatThreshold == SquatFactor * (b.standingKneeY - b.standingHipY)
    ensures b.deepSquatThreshold == DeepSquatFactor * (b.standingKneeY - b.standingHipY)
    ensures AllStanding(ss) ==> b.standingKneeY - b.standingHipY > StandingGap
    ensures AllStanding(ss) ==> 0.0 < b.squatThreshold < b.deepSquatThreshold
  {
    var n := |ss| as real;
    var hip := SumHip(ss) / n;
    var knee := SumKnee(ss) / n;
    var leg := knee - hip;
    MeanLegExceedsGap(ss);
    Baseline(hip, knee, leg * SquatFactor, leg * DeepSquatFactor)
  }

  /** The baseline heights are the arithmetic means of the samples' heights. */
  lemma BaselineIsMean(ss: seq<Sample>)
    requires |ss| > 0
    ensures BaselineOf(ss).standingHipY * (|ss| as real) == SumHip(ss)
    ensures BaselineOf(ss).standingKneeY * (|ss| as real) == SumKnee(ss)
  {
  }

  /** Reported progress, `min(100, n / 30 * 100)` percent. */
  function Progress(n: nat): (p: real)
    ensures 0.0 <= p <= 100.0
    ensures n <= RequiredSamples ==> p * 30.0 == (n as real) * 100.0
    ensures p == 100.0 <==> n >= RequiredSamples
  {
    MinReal(100.0, (n as real) / 30.0 * 100.0)
  }

  /** Mean of the two hips' and the two knees' heights of a full-body frame. */
  function SampleOf(frame: Frame): Sample
    requires 23 in frame && 24 in frame && 25 in frame && 26 in frame
  {
    Sample((frame[23].y + frame[24].y) / 2.0, (frame[25].y + frame[26].y) / 2.0)
  }

  // ---------------------------------------------------------------------
  // Detector state
  // ---------------------------------------------------------------------

  /** The internal repetition phase of the hysteresis machine. */
  datatype RepPhase = Standing | Squatting

  /** Depth grade of a completed repetition. */
  datatype Category = Shallow | Medium | Deep

  datatype DepthCounts = DepthCounts(shallow: nat, medium: nat, deep: nat) {
    function Add(c: Category): (r: DepthCounts)
      ensures r.shallow + r.medium + r.deep == shallow + medium + deep + 1
    {
      match c
      case Shallow => this.(shallow := shallow + 1)
      case Medium => this.(medium := medium + 1)
      case Deep => this.(deep := deep + 1)
    }
  }

  /** The per-frame state the source exposes to its listeners. */
  datatype PoseState = PoseState(
    isSquatting: bool,
    squatDepth: real,
    squatCount: nat,
    lastSquatTime: int,
    lastSquatDepth: real,
    depthCategory: Option<Category>)

  datatype Detector = Detector(
    isCalibrated: bool,
    calibration: Baseline,
    current: PoseState,
    depthCounts: DepthCounts,
    phase: RepPhase,
    maxDepthThisSquat: real,
    samples: seq<Sample>,
    calibrationProgress: real,
    isFullBodyVisible: bool,
    fullBodyDetectedTime: int,
    calibrationStarted: bool)

  /** The constructor's state, including its placeholder thresholds.
      resetCalibration returns to this state, keeping only the thresholds. */
  function NewDetector(): (d: Detector)
    ensures Valid(d) && !d.isCalibrated
    // nothing seen, sampled or counted yet
    ensures d.samples == [] && d.calibrationProgress == 0.0
    ensures !d.isFullBodyVisible && d.fullBodyDetectedTime == 0 && !d.calibrationStarted
    ensures d.current.squatCount == 0 && !d.current.isSquatting && d.current.squatDepth == 0.0
    ensures d.current.depthCategory.None? && d.current.lastSquatTime == 0 && d.current.lastSquatDepth == 0.0
    ensures d.depthCounts == DepthCounts(0, 0, 0)
    ensures d.phase == Standing && d.maxDepthThisSquat == 0.0
  {
    Detector(false, Baseline(0.0, 0.0, 0.1, 0.2), PoseState(false, 0.0, 0, 0, 0.0, None),
             DepthCounts(0, 0, 0), Standing, 0.0, [], 0.0, false, 0, false)
  }

  /** The calibration half of the detector invariant: at most thirty standing
      samples, calibrated exactly when there are thirty, progress reported from
      the sample count, the baseline computed from the samples once calibrated,
      and thresholds that are positive and ordered. */
  predicate CalibrationValid(isCalibrated: bool, calibration: Baseline, samples: seq<Sample>, progress: real) {
    && |samples| <= RequiredSamples
    && (isCalibrated <==> |samples| == RequiredSamples)
    && AllStanding(samples)
    && progress == Progress(|samples|)
    && (isCalibrated ==> calibration == BaselineOf(samples))
    && 0.0 < calibration.squatThreshold < calibration.deepSquatThreshold
  }

  /** The counting half: depths in range, the peak cleared between
      repetitions, tallies adding up to the count, nothing counted before
      calibration. */
  predicate CountingValid(d: Detector) {
    && 0.0 <= d.current.squatDepth <= 1.0
    && 0.0 <= d.maxDepthThisSquat <= 1.0
    && (d.phase == Standing ==> d.maxDepthThisSquat == 0.0)
    && d.depthCounts.shallow + d.depthCounts.medium + d.depthCounts.deep == d.current.squatCount
    && (!d.isCalibrated ==> d.current.squatCount == 0 && d.phase == Standing)
  }

  /** The invariant every reachable detector keeps. */
  predicate Valid(d: Detector) {
    && CalibrationValid(d.isCalibrated, d.calibration, d.samples, d.calibrationProgress)
    && CountingValid(d)
  }

  // ---------------------------------------------------------------------
  // Calibration state machine
  // ---------------------------------------------------------------------

  /** The `reason` code of a calibration progress report. */
  datatype Reason = NotFullBodyCode | WaitingCode | NotStandingCode | StandingCode

  datatype ProgressReport = ProgressReport(
    progress: real,
    isCorrectPose: bool,
    reason: Reason,
    countdown: int)

  /** One calibration frame: the new state, the visibility status and progress
      report it always emits, and the baseline if calibration completed. */
  datatype CalibrationStep = CalibrationStep(
    detector: Detector,
    status: BodyCheck,
    report: ProgressReport,
    completed: Option<Baseline>)

  /** processCalibration (with completeCalibration folded in). */
  function ProcessCalibration(d: Detector, frame: Frame, now: int): (r: CalibrationStep)
    ensures r.status == CheckFullBodyVisibility(frame)
    ensures r.detector.isFullBodyVisible == r.status.isFullBody
    // losing the body: timer cleared, samples and progress kept
    ensures !r.status.isFullBody ==>
      && r.report == ProgressReport(d.calibrationProgress, false, NotFullBodyCode, 0)
      && r.detector.fullBodyDetectedTime == 0
      && r.detector.samples == d.samples
      && r.detector.calibrationProgress == d.calibrationProgress
      && r.completed.None?
    // the rising edge starts the wait afresh
    ensures r.status.isFullBody && !d.isFullBodyVisible ==>
      r.detector.fullBodyDetectedTime == now && r.report.reason == WaitingCode && r.report.countdown == 2
    // while the body stays in view the wait keeps its start time
    ensures r.status.isFullBody && d.isFullBodyVisible ==>
      r.detector.fullBodyDetectedTime == d.fullBodyDetectedTime
    // waiting: nothing sampled, countdown is the whole seconds still to wait, rounded up
    ensures r.report.reason == WaitingCode ==>
      var elapsed := now - r.detector.fullBodyDetectedTime;
      && r.status.isFullBody
      && elapsed < WaitTime
      && r.report.progress == 0.0
      && (r.report.countdown - 1) * 1000 < WaitTime - elapsed <= r.report.countdown * 1000
      && r.detector.samples == d.samples
      && r.completed.None?
    ensures r.status.isFullBody && now - r.detector.fullBodyDetectedTime >= WaitTime ==>
      r.report.reason in {NotStandingCode, StandingCode}
    // which report a frame gets: every frame of the wait reports waiting, and
    // only an accepted sample is reported as a correct pose
    ensures r.report.reason == NotFullBodyCode <==> !r.status.isFullBody
    ensures r.report.reason == WaitingCode <==>
      r.status.isFullBody && now - r.detector.fullBodyDetectedTime < WaitTime
    ensures r.report.isCorrectPose <==> r.report.reason == StandingCode
    ensures r.report.reason != WaitingCode ==> r.report.countdown == 0
    ensures r.report.reason != StandingCode ==> r.detector.samples == d.samples
    ensures r.completed.None? ==> r.detector.isCalibrated == d.isCalibrated && r.detector.calibration == d.calibration
    // counting state is untouched
    ensures r.detector.current == d.current && r.detector.depthCounts == d.depthCounts
    ensures r.detector.phase == d.phase && r.detector.maxDepthThisSquat == d.maxDepthThisSquat
  {
    var check := CheckFullBodyVisibility(frame);
    var wasFullBody := d.isFullBodyVisible;
    var d1 := d.(isFullBodyVisible := check.isFullBody);
    if !check.isFullBody then
      CalibrationStep(
        d1.(fullBodyDetectedTime := 0, calibrationStarted := false),
        check, ProgressReport(d.calibrationProgress, false, NotFullBodyCode, 0), None)
    else
      var d2 := if !wasFullBody then d1.(fullBodyDetectedTime := now) else d1;
      var elapsed := now - d2.fullBodyDetectedTime;
      if elapsed < WaitTime then
        CalibrationStep(d2, check, ProgressReport(0.0, false, WaitingCode, CeilDiv(WaitTime - elapsed, 1000)), None)
      else
        var d3 := d2.(calibrationStarted := true);
        FullBodyHasHipsAndKnees(frame);
        var sample := SampleOf(frame);
        if IsStanding(sample) then
          var samples := d3.samples + [sample];
          var progress := Progress(|samples|);
          var d4 := d3.(samples := samples, calibrationProgress := progress);
          var report := ProgressReport(progress, true, StandingCode, 0);
          if |samples| >= RequiredSamples then
            var baseline := BaselineOf(samples);
            CalibrationStep(d4.(calibration := baseline, isCalibrated := true), check, report, Some(baseline))
          else
            CalibrationStep(d4, check, report, None)
        else
          CalibrationStep(d3, check, ProgressReport(d.calibrationProgress, false, NotStandingCode, 0), None)
  }

  /** Sampling after the wait: a frame is accepted exactly when it shows a
      standing pose, and calibration completes exactly when the thirtieth
      sample is accepted, storing the baseline of all thirty. */
  lemma CalibrationSampling(d: Detector, frame: Frame, now: int)
    ensures var r := ProcessCalibration(d, frame, now);
      r.report.reason == StandingCode <==>
        r.status.isFullBody && now - r.detector.fullBodyDetectedTime >= WaitTime
        && (FullBodyHasHipsAndKnees(frame); IsStanding(SampleOf(frame)))
    ensures var r := ProcessCalibration(d, frame, now);
      r.report.reason == StandingCode ==>
        && (FullBodyHasHipsAndKnees(frame); r.detector.samples == d.samples + [SampleOf(frame)])
        && r.detector.calibrationProgress == Progress(|r.detector.samples|)
        && r.report.progress == r.detector.calibrationProgress
        && r.report.isCorrectPose
    ensures var r := ProcessCalibration(d, frame, now);
      r.report.reason == NotStandingCode ==>
        r.report.progress == d.calibrationProgress && r.detector.calibrationProgress == d.calibrationProgress
    ensures var r := ProcessCalibration(d, frame, now);
      r.completed.Some? <==> r.report.reason == StandingCode && |r.detector.samples| >= RequiredSamples
    ensures var r := ProcessCalibration(d, frame, now);
      r.completed.Some? ==>
        r.detector.isCalibrated && r.completed.value == r.detector.calibration
        && r.detector.calibration == BaselineOf(r.detector.samples)
  {
  }

  /** Before calibration completes, a calibration frame keeps the detector
      invariant: only standing samples are kept, at most thirty, with the
      progress and the baseline they determine. */
  lemma ProcessCalibrationKeepsValid(d: Detector, frame: Frame, now: int)
    ensures Valid(d) && !d.isCalibrated ==> Valid(ProcessCalibration(d, frame, now).detector)
  {
    if Valid(d) && !d.isCalibrated {
      CalibrationSampling(d, frame, now);
      var r := ProcessCalibration(d, frame, now);
      if r.report.reason == StandingCode {
        FullBodyHasHipsAndKnees(frame);
        assert IsStanding(SampleOf(frame));
        assert AllStanding(r.detector.samples);
      }
      assert CalibrationValid(r.detector.isCalibrated, r.detector.calibration,
                              r.detector.samples, r.detector.calibrationProgress);
    }
  }

  // ---------------------------------------------------------------------
  // Repetition counting
  // ---------------------------------------------------------------------

  const ShallowLimit: real := 0.4
  const MediumLimit: real := 0.7

  /** The grade of a repetition from its peak depth. */
  function Classify(peak: real): (c: Category)
    ensures c == Shallow <==> peak < ShallowLimit
    ensures c == Medium <==> ShallowLimit <= peak < MediumLimit
    ensures c == Deep <==> peak >= MediumLimit
  {
    if peak < ShallowLimit then Shallow
    else if peak < MediumLimit then Medium
    else Deep
  }

  /** The event fired when a repetition completes. */
  datatype RepEvent = RepEvent(count: nat, category: Category, peakDepth: real)

  datatype GameStep = GameStep(detector: Detector, rep: Option<RepEvent>)

  predicate HasHips(frame: Frame) {
    23 in frame && 24 in frame
  }

  /** Vertical offset of the mean hip height below the standing baseline. */
  function Displacement(d: Detector, frame: Frame): real
    requires HasHips(frame)
  {
    (frame[23].y + frame[24].y) / 2.0 - d.calibration.standingHipY
  }

  /** updateGameState: the clamped depth and the hysteresis machine. */
  function UpdateGameState(d: Detector, frame: Frame, now: int): (r: GameStep)
    requires d.calibration.deepSquatThreshold != 0.0
    ensures !HasHips(frame) ==> r == GameStep(d, None)
    ensures HasHips(frame) ==>
      var disp := Displacement(d, frame);
      var depth := r.detector.current.squatDepth;
      var ratio := disp / d.calibration.deepSquatThreshold;
      && 0.0 <= depth <= 1.0
      // the depth saturates at both ends of [0, 1]
      && (0.0 <= ratio <= 1.0 ==> depth == ratio)
      && (ratio < 0.0 ==> depth == 0.0)
      && (ratio > 1.0 ==> depth == 1.0)
      && (r.detector.current.isSquatting <==> disp > d.calibration.squatThreshold)
      // the rise trigger
      && (d.phase == Standing ==>
            r.rep.None?
            && (r.detector.phase == Squatting <==> disp > d.calibration.squatThreshold)
            && (r.detector.phase == Squatting ==> r.detector.maxDepthThisSquat == depth))
      // the fall trigger, the only place a repetition is counted
      && (d.phase == Squatting ==>
            (r.rep.Some? <==> disp < d.calibration.squatThreshold * 0.5)
            && (r.detector.phase == Standing <==> r.rep.Some?)
            && (r.rep.None? ==> r.detector.maxDepthThisSquat == MaxReal(d.maxDepthThisSquat, depth)))
    ensures r.rep.Some? ==>
      var peak := r.rep.value.peakDepth;
      && d.phase == Squatting && r.detector.phase == Standing
      && HasHips(frame) && peak == MaxReal(d.maxDepthThisSquat, r.detector.current.squatDepth)
      && r.rep.value.category == Classify(peak)
      && r.rep.value.count == d.current.squatCount + 1
      && r.detector.current.squatCount == r.rep.value.count
      && r.detector.current.lastSquatTime == now
      && r.detector.current.lastSquatDepth == peak
      && r.detector.current.depthCategory == Some(r.rep.value.category)
      && r.detector.depthCounts == d.depthCounts.Add(r.rep.value.category)
      && r.detector.maxDepthThisSquat == 0.0
    ensures r.rep.None? ==>
      r.detector.current.squatCount == d.current.squatCount && r.detector.depthCounts == d.depthCounts
    // calibration is inert here
    ensures r.detector.calibration == d.calibration && r.detector.isCalibrated == d.isCalibrated
    ensures r.detector.samples == d.samples && r.detector.calibrationProgress == d.calibrationProgress
  {
    if !HasHips(frame) then GameStep(d, None)
    else
      var displacement := Displacement(d, frame);
      var depth := Clamp01(displacement / d.calibration.deepSquatThreshold);
      var cur := d.current.(squatDepth := depth, isSquatting := displacement > d.calibration.squatThreshold);
      var d1 := d.(current := cur);
      match d.phase
      case Standing =>
        if displacement > d.calibration.squatThreshold then
          GameStep(d1.(phase := Squatting, maxDepthThisSquat := depth), None)
        else
          GameStep(d1, None)
      case Squatting =>
        var peak := if depth > d.maxDepthThisSquat then depth else d.maxDepthThisSquat;
        if displacement < d.calibration.squatThreshold * 0.5 then
          var category := Classify(peak);
          var count := d.current.squatCount + 1;
          var cur2 := cur.(squatCount := count, lastSquatTime := now, lastSquatDepth := peak,
                           depthCategory := Some(category));
          GameStep(d1.(phase := Standing, current := cur2, depthCounts := d.depthCounts.Add(category),
                       maxDepthThisSquat := 0.0),
                   Some(RepEvent(count, category, peak)))
        else
          GameStep(d1.(maxDepthThisSquat := peak), None)
  }

  /** Once calibrated, the counter keeps the detector invariant: depth in
      range, the tallies adding up to the count, and the peak cleared between
      repetitions. */
  lemma UpdateGameStateKeepsValid(d: Detector, frame: Frame, now: int)
    requires d.calibration.deepSquatThreshold != 0.0
    ensures Valid(d) && d.isCalibrated ==> Valid(UpdateGameState(d, frame, now).detector)
  {
    if Valid(d) && d.isCalibrated && HasHips(frame) {
      var r := UpdateGameState(d, frame, now).detector;
      assert r.isCalibrated == d.isCalibrated && r.calibration == d.calibration;
      assert r.samples == d.samples && r.calibrationProgress == d.calibrationProgress;
      assert CalibrationValid(r.isCalibrated, r.calibration, r.samples, r.calibrationProgress);
      assert 0.0 <= r.current.squatDepth <= 1.0;
      assert 0.0 <= r.maxDepthThisSquat <= 1.0;
      assert r.phase == Standing ==> r.maxDepthThisSquat == 0.0;
      assert r.depthCounts.shallow + r.depthCounts.medium + r.depthCounts.deep == r.current.squatCount;
    }
  }

  /** The worked example of a deep repetition: a baseline with standing hip at
      0.50 and knee at 0.70 has thresholds 0.03 and 0.08; the hip dropping to
      0.62 enters the squat at full depth, and its return to 0.50 counts the
      first repetition as deep with peak depth 1. */
  lemma DeepRepetitionExample(d: Detector, down: Frame, up: Frame, t1: int, t2: int)
    requires d.isCalibrated && d.phase == Standing && d.current.squatCount == 0
    requires d.calibration == Baseline(0.50, 0.70, 0.03, 0.08)
    requires HasHips(down) && down[23].y == 0.62 && down[24].y == 0.62
    requires HasHips(up) && up[23].y == 0.50 && up[24].y == 0.50
    ensures var s1 := UpdateGameState(d, down, t1);
      var s2 := UpdateGameState(s1.detector, up, t2);
      && s1.rep.None? && s1.detector.phase == Squatting && s1.detector.current.squatDepth == 1.0
      && s2.rep == Some(RepEvent(1, Deep, 1.0)) && s2.detector.phase == Standing
  {
  }

  /** Hysteresis: while the displacement stays inside the band between the fall
      trigger and the rise trigger, the phase never changes and nothing is counted. */
  lemma HysteresisBandHolds(d: Detector, frame: Frame, now: int)
    requires Valid(d) && HasHips(frame)
    requires d.calibration.squatThreshold * 0.5 <= Displacement(d, frame) <= d.calibration.squatThreshold
    ensures UpdateGameState(d, frame, now).detector.phase == d.phase
    ensures UpdateGameState(d, frame, now).rep.None?
  {
  }

  // ---------------------------------------------------------------------
  // Frame routing, reset, listeners
  // ---------------------------------------------------------------------

  /** Everything one delivered frame produces. */
  datatype FrameResult = FrameResult(
    detector: Detector,
    calibration: Option<CalibrationStep>,
    rep: Option<RepEvent>)

  /** onResults: a frame without landmarks does nothing; before calibration
      completes a frame feeds calibration, afterwards it feeds the counter. */
  function OnResults(d: Detector, frame: Option<Frame>, now: int): (r: FrameResult)
    requires d.isCalibrated ==> d.calibration.deepSquatThreshold != 0.0
    ensures frame.None? ==> r == FrameResult(d, None, None)
    // a frame goes to the calibration step until calibration completes ...
    ensures frame.Some? && !d.isCalibrated ==>
      r.calibration == Some(ProcessCalibration(d, frame.value, now))
      && r.detector == r.calibration.value.detector
    // ... and to the counter afterwards
    ensures frame.Some? && d.isCalibrated ==>
      r.detector == UpdateGameState(d, frame.value, now).detector
      && r.rep == UpdateGameState(d, frame.value, now).rep
    ensures d.isCalibrated ==>
      && r.calibration.None?
      && r.detector.isCalibrated
      && r.detector.calibration == d.calibration
      && r.detector.samples == d.samples
    ensures !d.isCalibrated ==>
      && r.rep.None?
      && r.detector.current == d.current
      && r.detector.depthCounts == d.depthCounts
      && (frame.Some? <==> r.calibration.Some?)
    ensures Valid(d) ==> Valid(r.detector)
  {
    match frame
    case None => FrameResult(d, None, None)
    case Some(f) =>
      if !d.isCalibrated then
        var step := ProcessCalibration(d, f, now);
        ProcessCalibrationKeepsValid(d, f, now);
        FrameResult(step.detector, Some(step), None)
      else
        var step := UpdateGameState(d, f, now);
        UpdateGameStateKeepsValid(d, f, now);
        FrameResult(step.detector, None, step.rep)
  }

  /** A delivered frame: landmarks (if any) and the clock reading. */
  datatype Delivery = Delivery(frame: Option<Frame>, now: int)

  datatype Run = Run(detector: Detector, reps: seq<RepEvent>)

  /** Feeds a sequence of deliveries through onResults, collecting repetitions.
      The repetition events are numbered consecutively from the starting count
      and the final tally matches the number of events. */
  function RunFrames(d: Detector, ds: seq<Delivery>): (r: Run)
    requires Valid(d)
    ensures Valid(r.detector)
    ensures r.detector.current.squatCount == d.current.squatCount + |r.reps|
    ensures forall i :: 0 <= i < |r.reps| ==> r.reps[i].count == d.current.squatCount + i + 1
    ensures d.isCalibrated ==> r.detector.isCalibrated && r.detector.calibration == d.calibration
    decreases |ds|
  {
    if |ds| == 0 then Run(d, [])
    else
      var step := OnResults(d, ds[0].frame, ds[0].now);
      var rest := RunFrames(step.detector, ds[1..]);
      match step.rep
      case None => rest
      case Some(e) => Run(rest.detector, [e] + rest.reps)
  }

  /** getDepthCounts: a copy of the tallies; they add up to the repetition count. */
  function GetDepthCounts(d: Detector): (c: DepthCounts)
    ensures Valid(d) ==> c.shallow + c.medium + c.deep == d.current.squatCount
  {
    d.depthCounts
  }

  /** resetCalibration. Note that the calibration record itself is kept: only
      the flag is cleared, so the old thresholds are unused until recomputed. */
  function ResetCalibration(d: Detector): (r: Detector)
    ensures !r.isCalibrated && r.samples == [] && r.calibrationProgress == 0.0
    ensures !r.isFullBodyVisible && r.fullBodyDetectedTime == 0 && !r.calibrationStarted
    // no stale repetition survives: the pose state, tallies and peak are back at rest
    ensures r.current.squatCount == 0 && !r.current.isSquatting && r.current.squatDepth == 0.0
    ensures r.current.depthCategory.None? && r.current.lastSquatTime == 0 && r.current.lastSquatDepth == 0.0
    ensures r.depthCounts == DepthCounts(0, 0, 0)
    ensures r.phase == Standing && r.maxDepthThisSquat == 0.0
    ensures r.calibration == d.calibration
    ensures 0.0 < d.calibration.squatThreshold < d.calibration.deepSquatThreshold ==> Valid(r)
  {
    NewDetector().(calibration := d.calibration)
  }

  lemma ResetIsIdempotent(d: Detector)
    ensures ResetCalibration(ResetCalibration(d)) == ResetCalibration(d)
  {
  }

  /** The colour of the skeleton overlay for a depth. */
  datatype Band = Red | Orange | Green

  /** getDepthColor. */
  function DepthColor(depth: real): (b: Band)
    ensures b == Red <==> depth < ShallowLimit
    ensures b == Green <==> depth >= MediumLimit
  {
    if depth < ShallowLimit then Red
    else if depth < MediumLimit then Orange
    else Green
  }

  /** The overlay colour and the repetition grade partition depth the same way. */
  lemma ColorMatchesGrade(depth: real)
    ensures DepthColor(depth) == Red <==> Classify(depth) == Shallow
    ensures DepthColor(depth) == Orange <==> Classify(depth) == Medium
    ensures DepthColor(depth) == Green <==> Classify(depth) == Deep
  {
  }
}
